=== FILE: README.md ===
# csvBatchRead batching coordinator, modelled in Dafny

`csvBatchRead(filePath, batchSize, handleHeader, handleBatch)` pipes a CSV file through
a streaming parser. It calls `handleHeader` once with the column names and calls
`handleBatch(rows, batchCount, isLastChunk)` for consecutive groups of `batchSize` rows.
It resolves only after the header handler and every batch handler have fulfilled. Once
the stream has ended, it rejects on the first rejection without waiting for the rest; an
`error` from the parser stream rejects it at once. It never settles if the stream ends before any record arrives. This project models the
coordinator that sits between the parser's `data`/`end`/`error` events and those
callbacks. It has three parts:

- `batching.dfy` (module `Batching`): the closure state (`buf`, `batchCount`,
  `isFirstChunk`, the header promise's value, and the batch tasks pushed onto
  `shouldResolve`) as an immutable `Coordinator` value. The `data` handler is `OnData`
  and the `end` handler is `OnEnd`, both pure steps. A parse that ends normally is
  `Run`, which folds `OnData` over the parser's records and then applies `OnEnd`.
  A record is a `seq<(string, string)>` of property name and raw text. It lists the row
  object's properties in their own-property enumeration order, the order `Object.keys`
  reports. Names are distinct, as in any JavaScript object (`DistinctNames`).
- `reference.dfy` (module `Reference`): an independent definition of the intended
  batches. The input is cut into chunks of `batchSize` rows, numbered from 0, and only
  the last chunk is flagged as last. One lemma proves that `Run` schedules exactly these
  batches; the batch-boundary guarantees are derived from it.
- `completion.dfy` (module `Completion`): the promise bookkeeping as a state machine
  over task statuses (`Pending`, `Fulfilled`, `Rejected`).
  - Parser events and handler completions are the environment's events.
  - Each batch task is chained on the header task `headerResolved`.
  - Once the stream has ended, `Promise.all(shouldResolve)` settles the run. A stream
    `error` rejects the run at once.
  - Invariants over every reachable state give the ordering and completion guarantees.

The parser is replaced by its output: a sequence of records followed by `end`, or
interrupted by an `error` from the parser (the `Data`, `End` and `StreamError` events).

Edge cases, as the code handles them:

- **No records.** `headerPromise` is resolved only by the first `data` event
  (src/csv-batch-read.ts:29-31). The `end` handler still schedules the empty last batch
  `([], 0, true)` (47-54), but it is chained on `headerResolved`, which never starts. So
  that batch never runs and the run never settles (`Completion.NoRecordsNeverSettle`).
- **Batch sizes below 1.** `batchSize` is not validated; the only flush test is
  `buf.length === batchSize` (line 33). With 0, the first record finds the empty buffer
  "full". An empty non-last batch 0 goes out first and every record lands in last batch 1
  (`Reference.BatchSizeZero`). With a negative size the test never holds, so all records
  form the single last batch 0 (`Reference.NegativeBatchSize`).
- **Batch callback arguments.** `handleBatch` takes three arguments: the rows, the batch
  index and the last-batch flag (lines 11, 38 and 52). It does not receive the header, so
  the model's batches carry no header.
- **Per-record errors.** There is no per-record error channel. The only error path is the
  stream's `error` handler (lines 67-71), which rejects the whole run
  (`Completion.StreamErrorRejects`).

## Model

| member | source | states |
|---|---|---|
| Batching.Init | src/csv-batch-read.ts:18-20 | The closure variables start as an empty buffer, batch index 0, `isFirstChunk` set and `headerPromise` unresolved. Nothing is received or scheduled, and the coordinator invariant holds for every batch size. |
| Batching.KeysOf | src/csv-batch-read.ts:30 | The header has one name per property of the record, in enumeration order, and names exactly the record's properties. A record with distinct names, as every JavaScript object has, gives a header without repeats. |
| Batching.OnData | src/csv-batch-read.ts:28-45 | The header is taken from the keys of the record that arrives while `isFirstChunk` holds, and is left unchanged afterwards. A batch is flushed if and only if the buffer held exactly `batchSize` rows. A flushed batch is non-last, takes the current index, and the index then advances by one. The new record is buffered after the flush. The rows already received plus the new record, in order, are exactly what the step keeps. |
| Batching.OnEnd | src/csv-batch-read.ts:47-54 | Earlier batches are untouched. Exactly one batch is added: the whole buffer, possibly empty, under the current index, flagged last. After it, the rows of all batches are exactly the rows received. |
| Batching.Feed | src/csv-batch-read.ts:28-45 | Folding the `data` handler over records extends the received rows by exactly those records. Earlier batches are never altered. The header is set by the first record and never changed by later ones. |
| Batching.Run | src/csv-batch-read.ts:18-54 | For every batch size, concatenating the rows of all scheduled batches in order gives back the input records exactly. The header is the key list of the first record, or absent when there are no records. |
| Batching.FeedKeepsInv | src/csv-batch-read.ts:33-44 | With `batchSize >= 1`, every `data` event preserves the coordinator invariant. The invariant is: the buffer holds 1 to `batchSize` rows once a record has arrived; `batchCount` equals the number of batches scheduled; every batch so far is full, non-last and numbered by its position. |
| Batching.BufferBounded | src/csv-batch-read.ts:33-44 | After every `data` event of a run with `batchSize >= 1`, `1 <= |buf| <= batchSize`. Every batch scheduled so far is full, non-last and numbered 0, 1, 2, … |
| Batching.HeaderResolvedOnce | src/csv-batch-read.ts:28-32 | `resolveHeaders` is called exactly once when at least one record arrives, and never otherwise. The header it receives is the key list of the first record. |
| Reference.RunMatchesReference | src/csv-batch-read.ts:33-53 | With `batchSize >= 1`, the scheduled batches are exactly the input cut into consecutive chunks of `batchSize` rows. The last chunk holds the remainder. Chunk k gets index k, and only the last chunk is flagged last. |
| Reference.IndicesContiguous | src/csv-batch-read.ts:18-53 | Batch indices are 0, 1, 2, … in scheduling order, with no gaps. |
| Reference.ExactlyOneLastBatch | src/csv-batch-read.ts:47-53 | There is at least one batch. A batch is flagged last if and only if it is the one scheduled last. |
| Reference.NonLastBatchesFull | src/csv-batch-read.ts:33-40 | Every batch scheduled with `isLast = false` holds exactly `batchSize` rows. |
| Reference.BatchCount | src/csv-batch-read.ts:33-53 | For N ≥ 1 records there are `(N + batchSize - 1) / batchSize` batches (ceil(N / batchSize)), and the last holds between 1 and `batchSize` rows. For no records, the only batch is `([], 0, true)`. |
| Reference.BatchSizeOne | src/csv-batch-read.test.ts:84-108 | With batch size 1 and N ≥ 1 records there are N batches. Batch i is `([record i], i, i == N - 1)`. |
| Reference.BatchSizeCoversInput | src/csv-batch-read.test.ts:110-164 | When `batchSize >= N`, exactly one batch is scheduled: all N records, index 0, flagged last. |
| Reference.NineRowsInThrees | src/csv-batch-read.test.ts:52-82 | Nine records in batches of three give two full non-last batches (indices 0 and 1) and then the last three records as last batch 2. |
| Reference.BatchSizeZero | src/csv-batch-read.ts:33-44 | With batch size 0 and N ≥ 1 records, the first record finds the empty buffer "full". The batches are an empty non-last batch 0, then every record in last batch 1. |
| Reference.NegativeBatchSize | src/csv-batch-read.ts:33-44 | With a negative batch size the buffer never equals it in length. All records form the single last batch 0. |
| Completion.Initial | src/csv-batch-read.ts:13-26 | A run starts with the stream open, `shouldResolve` holding only the pending header task `headerResolved`, and the run unsettled. That start state satisfies the run invariant, the base case of `Completion.Reachable`. |
| Completion.Gate | src/csv-batch-read.ts:56-64 | `Promise.all(shouldResolve)` changes nothing but the run's settlement. It acts only after `end` and only on an unsettled run. The run then resolves if and only if every task has fulfilled, rejects only with a rejected task's reason, and stays pending if and only if no task has rejected and some task has not fulfilled (`Completion.AllSettlement`). |
| Completion.Handle | src/csv-batch-read.ts:23-71 | Parser events move the coordinator only while the stream is open. Each batch scheduled gets exactly one new task chained on the header task: pending, or already rejected with the header task's reason if that has rejected. A settled task keeps its status. The header handler settles only after `headerPromise` has resolved. A batch task settles only once the header task has, and fulfils only if the header task fulfilled. When the header task rejects, every pending batch task rejects with the same reason in the same step. The settlement changes only when an `error` on an open stream rejects an unsettled run. |
| Completion.Step | src/csv-batch-read.ts:23-71 | One event followed by `Promise.all`'s reaction. `shouldResolve` only grows and settled tasks keep their status. A closed stream keeps its coordinator. A settled run stays settled. A run resolves only once the stream has ended and every task has fulfilled, and it rejects only with a stream error or a rejected task. That every event preserves the whole run invariant is `Completion.StepKeepsInv`. |
| Completion.AllSettlement | src/csv-batch-read.ts:56-64 | `Promise.all` over the members is fulfilled if and only if every member is fulfilled. It rejects only with the reason of a rejected member. It stays pending if and only if no member is rejected and some member is not yet fulfilled. |
| Completion.StepKeepsInv | src/csv-batch-read.ts:21-71 | Every event preserves the run invariant. It covers the header gate, the batch-task/batch correspondence, the no-record state, and how the run may have settled. |
| Completion.Reachable | src/csv-batch-read.ts:13-71 | Every state reachable from the start of a run satisfies the run invariant. |
| Completion.HeaderGatesBatches | src/csv-batch-read.ts:21-53 | No batch task settles before the header task has. A batch task is fulfilled only if the header task was fulfilled. Once the header task has rejected, every batch task has rejected with its reason. While `headerPromise` is unresolved, the header task and every batch task are pending. |
| Completion.ResolvesIffAllFulfilled | src/csv-batch-read.ts:56-60 | The run is resolved if and only if the stream has ended and the header task and every batch task in `shouldResolve` are fulfilled. So it never resolves while any of them is pending. |
| Completion.RejectionCauses | src/csv-batch-read.ts:56-71 | The run rejects only with the reason of a stream error or of a rejected task in `shouldResolve`. A stream error always leaves the run rejected with its reason. A rejected task leaves the run rejected once the stream has ended. |
| Completion.SettledTasksStaySettled | src/csv-batch-read.ts:21-54 | Over every sequence of events, a settled header or batch task keeps its status and `shouldResolve` only grows. |
| Completion.EarlyRejectionWaitsForEnd | src/csv-batch-read.ts:21-64 | When the header handler throws after the first record but before `end`, the header task is rejected while the stream is open and the run unsettled. The following `end` rejects the run with that reason. |
| Completion.SettlementIsFinal | src/csv-batch-read.ts:56-71 | Once the run has resolved or rejected, no later events change the outcome. |
| Completion.ClosedStreamFreezesBatching | src/csv-batch-read.ts:47-71 | After `end` or `error`, no event schedules a batch or changes the coordinator's state. |
| Completion.StreamErrorRejects | src/csv-batch-read.ts:67-71 | A stream error on an open stream rejects the run with its reason. No batch is scheduled after it, and the rejection stands under all later events. |
| Completion.NoRecordsNeverSettle | src/csv-batch-read.ts:21-56 | When the stream ends before any record, the scheduled batches are exactly `([], 0, true)`. The header task and that batch task stay pending, no later event changes the state, and the run never settles. |
| Completion.StreamEventsRunBatching | src/csv-batch-read.ts:28-54 | After one `data` event per record and then `end`, the coordinator state equals `Batching.Run`. Every header and batch task is still pending and the run has not settled. |
| Completion.AllHandlersReturnResolves | src/csv-batch-read.ts:47-60 | Suppose at least one record arrives, the header handler returns, and then every batch handler returns in index order. Then the run resolves. |
| Completion.HeaderFailureRejects | src/csv-batch-read.ts:21-64 | If the header handler throws after at least one record and `end`, the run rejects with the handler's reason at once, before any batch handler has run. Every batch task has rejected with that same reason. |

## Left out

- File and stream plumbing (`createReadStream`, piping into the parser, `stream.destroy()`) is I/O. The parser's output is an input record sequence plus an optional terminal `error`.
- Field splitting, quoting and the `header: true` key derivation belong to the parser library and are not part of this model. Records arrive already split.
- The `console.error` call in the `error` handler is logging only.
- src/promise-with-resolvers.ts is not part of this model beyond its effect. Calling `resolveHeaders` is the header value becoming present (`Coordinator.header`), which enables the header handler.
- Real time and microtask interleaving between overlapping handler calls are left out. Only which statuses may follow which is modelled.
- A rejection of `headerResolved` reaches the batch tasks chained on it (src/csv-batch-read.ts:36-40, 50-54) in microtasks. These run before the next parser event and before `Promise.all`, which subscribes later (line 56), reacts. The model therefore rejects those batch tasks in the same step as the header task, and a task chained later on an already-rejected header task starts rejected.
- A handler rejection before `end` is not modelled as Node handles it. Until the `end` handler calls `Promise.all(shouldResolve)` (src/csv-batch-read.ts:56), nothing is attached to `headerResolved` (23-25) or to a batch task (36-40) that could catch a rejection. Under Node's default unhandled-rejection mode (`throw`, Node 15 and later) such a rejection becomes an uncaught exception and the process terminates, so the returned promise never rejects. A `handleHeader` that throws at once after the first `data` event is the usual case. The model assumes instead that the rejection waits for `Promise.all`, which then rejects with it (`Completion.EarlyRejectionWaitsForEnd`).
- Errors of the file read stream are not modelled. `.pipe()` (src/csv-batch-read.ts:14-16) does not forward them, and only the parser stream has an `error` listener (line 67). A read error, such as a missing file, is an `error` event with no listener: an uncaught exception rather than a rejected run. The model's `StreamError` event is an `error` from the parser stream.
- Batching.KeysOf: the reordering `Object.keys` applies to integer-like property names (listed first, in ascending numeric order) is not modelled. A record is taken to be already in enumeration order, so a CSV header `id,2023,2022` is a record whose fields are listed `2022`, `2023`, `id`. A record that repeats a name cannot come from a JavaScript object; the model does not exclude such records, and `KeysOf` then repeats the name.
- `batchSize` is an unbounded integer. A fractional value never equals a buffer length, so it behaves like the negative case, and is not modelled separately.
- The parser stream is assumed to emit nothing after `end` or `error`, and the model ignores any such event. The code itself would still act on one: an `error` after `end` runs `reject(error)` (src/csv-batch-read.ts:70) and would reject a run that is still waiting on handlers.

=== FILE: batching.dfy ===
/**
  The batching step machine of csvBatchRead (src/csv-batch-read.ts).

  The handlers registered on the parsed stream share a handful of closure
  variables: the row buffer, the next batch index, the first-chunk flag and
  the header promise. Here those variables form an immutable `Coordinator`
  value, the `data` and `end` handlers are pure step functions on it, and a
  whole parse is a fold of `OnData` over the parser's record sequence
  followed by one `OnEnd`.
 */
module Batching {

  datatype Option<+T> = None | Some(value: T)

  /** One parsed field: its column name and its raw, uncoerced text. */
  type Field = (string, string)

  /**
    One parsed row object, listed in its own-property enumeration order: the
    order `Object.keys` reports, which puts integer-like names first. A
    JavaScript object cannot repeat a property name, so a row the parser
    emits satisfies `DistinctNames`.
   */
  type Record = seq<Field>

  /** The record has a property called `name`. */
  ghost predicate HasField(rec: Record, name: string) {
    exists i :: 0 <= i < |rec| && rec[i].0 == name
  }

  /** No property name occurs twice, as in every JavaScript object. */
  ghost predicate DistinctNames(rec: Record) {
    forall i, j :: 0 <= i < j < |rec| ==> rec[i].0 != rec[j].0
  }

  /** Column names, in the key order of the first record. */
  type Header = seq<string>

  /** One scheduled call `handleBatch(rows, index, isLast)`. */
  datatype Batch = Batch(rows: seq<Record>, index: nat, isLast: bool)

  /**
    The closure state of one run. `header` is the value `headerPromise` was
    resolved with (None while it is unresolved), and `scheduled` lists the
    batch tasks pushed onto `shouldResolve` after the header task, in push
    order.
   */
  datatype Coordinator = Coordinator(
    buf: seq<Record>,
    batchCount: nat,
    isFirstChunk: bool,
    header: Option<Header>,
    scheduled: seq<Batch>)

  /**
    `Object.keys` of a record: one entry per property, in enumeration order,
    naming exactly the record's properties, and without repeats when the
    record is a real object.
   */
  function KeysOf(rec: Record): (h: Header)
    ensures |h| == |rec| && forall i :: 0 <= i < |h| ==> h[i] == rec[i].0
    ensures forall name :: name in h <==> HasField(rec, name)
    ensures DistinctNames(rec) ==> forall i, j :: 0 <= i < j < |h| ==> h[i] != h[j]
  {
    seq(|rec|, i requires 0 <= i < |rec| => rec[i].0)
  }

  /** The row lists of some batches, in order. */
  function RowsOf(bs: seq<Batch>): seq<seq<Record>> {
    seq(|bs|, i requires 0 <= i < |bs| => bs[i].rows)
  }

  /** The concatenation of a sequence of row lists. */
  function Concat(css: seq<seq<Record>>): seq<Record> {
    if css == [] then [] else css[0] + Concat(css[1..])
  }

  lemma {:induction false} ConcatAppend(a: seq<seq<Record>>, b: seq<seq<Record>>)
    ensures Concat(a + b) == Concat(a) + Concat(b)
  {
    if a == [] {
      assert a + b == b;
    } else {
      assert (a + b)[1..] == a[1..] + b;
      ConcatAppend(a[1..], b);
    }
  }

  lemma ConcatRowsSnoc(bs: seq<Batch>, b: Batch)
    ensures Concat(RowsOf(bs + [b])) == Concat(RowsOf(bs)) + b.rows
  {
    assert RowsOf(bs + [b]) == RowsOf(bs) + [b.rows];
    ConcatAppend(RowsOf(bs), [b.rows]);
    assert Concat([b.rows]) == b.rows + Concat([]);
  }

  /**
    Every record the coordinator has taken in, in arrival order: the rows of
    the batches already scheduled, then the buffer. (Only meaningful before
    the `end` handler, which schedules the buffer without clearing it.)
   */
  function Received(s: Coordinator): seq<Record> {
    Concat(RowsOf(s.scheduled)) + s.buf
  }

  /**
    The `data` handler. The first record resolves the header with its keys;
    a buffer that already holds exactly `batchSize` rows is scheduled as a
    non-last batch and emptied before the record is appended.
   */
  function OnData(s: Coordinator, batchSize: int, rec: Record): (t: Coordinator)
    ensures t.header == (if s.isFirstChunk then Some(KeysOf(rec)) else s.header)
    ensures !t.isFirstChunk
    ensures Received(t) == Received(s) + [rec]
    ensures t.buf != [] && t.buf[|t.buf| - 1] == rec
    ensures t.scheduled == s.scheduled
            || (|s.buf| == batchSize && t.scheduled == s.scheduled + [Batch(s.buf, s.batchCount, false)])
    ensures |s.buf| == batchSize <==> |t.scheduled| == |s.scheduled| + 1
    ensures t.batchCount - s.batchCount == |t.scheduled| - |s.scheduled|
  {
    var named := if s.isFirstChunk then s.(header := Some(KeysOf(rec)), isFirstChunk := false) else s;
    var flushed :=
      if |named.buf| == batchSize then
        ConcatRowsSnoc(named.scheduled, Batch(named.buf, named.batchCount, false));
        named.(scheduled := named.scheduled + [Batch(named.buf, named.batchCount, false)],
               buf := [],
               batchCount := named.batchCount + 1)
      else named;
    flushed.(buf := flushed.buf + [rec])
  }

  /**
    The `end` handler: whatever the buffer holds, possibly nothing, is
    scheduled as the last batch under the current batch index.
   */
  function OnEnd(s: Coordinator): (t: Coordinator)
    ensures |t.scheduled| == |s.scheduled| + 1 && t.scheduled[..|s.scheduled|] == s.scheduled
    ensures t.scheduled[|s.scheduled|] == Batch(s.buf, s.batchCount, true)
    ensures Concat(RowsOf(t.scheduled)) == Received(s)
    ensures t.header == s.header
  {
    var last := Batch(s.buf, s.batchCount, true);
    ConcatRowsSnoc(s.scheduled, last);
    assert (s.scheduled + [last])[..|s.scheduled|] == s.scheduled;
    s.(scheduled := s.scheduled + [last])
  }

  /** The `data` handler applied to each record in turn. */
  function Feed(s: Coordinator, batchSize: int, recs: seq<Record>): (t: Coordinator)
    ensures Received(t) == Received(s) + recs
    ensures recs == [] ==> t == s
    ensures recs != [] ==> !t.isFirstChunk
    ensures recs != [] && s.isFirstChunk ==> t.header == Some(KeysOf(recs[0]))
    ensures !s.isFirstChunk ==> t.header == s.header
    ensures |s.scheduled| <= |t.scheduled| && t.scheduled[..|s.scheduled|] == s.scheduled
    decreases |recs|
  {
    if recs == [] then s
    else
      var next := OnData(s, batchSize, recs[0]);
      assert recs == [recs[0]] + recs[1..];
      var t := Feed(next, batchSize, recs[1..]);
      assert t.scheduled[..|s.scheduled|] == t.scheduled[..|next.scheduled|][..|s.scheduled|];
      t
  }

  /** A whole parse that ends normally: every `data` event, then `end`. */
  function Run(batchSize: int, recs: seq<Record>): (t: Coordinator)
    ensures Concat(RowsOf(t.scheduled)) == recs
    ensures t.header == (if recs == [] then None else Some(KeysOf(recs[0])))
  {
    OnEnd(Feed(Init(), batchSize, recs))
  }

  /** Every scheduled batch so far is a full, non-last batch numbered by its position. */
  ghost predicate FullBatches(bs: seq<Batch>, batchSize: int) {
    forall i :: 0 <= i < |bs| ==> bs[i].index == i && !bs[i].isLast && |bs[i].rows| == batchSize
  }

  /** What holds between events of a run with a positive batch size. */
  ghost predicate Inv(s: Coordinator, batchSize: int) {
    && (s.isFirstChunk <==> s.header.None?)
    && (s.isFirstChunk ==> s.buf == [] && s.scheduled == [])
    && (!s.isFirstChunk ==> 1 <= |s.buf| <= batchSize)
    && s.batchCount == |s.scheduled|
    && FullBatches(s.scheduled, batchSize)
  }

  /**
    The state before the parser emits anything: nothing received, the header
    unresolved, and the invariant holding for every batch size.
   */
  function Init(): (c: Coordinator)
    ensures Received(c) == [] && c.scheduled == []
    ensures c.isFirstChunk && c.header.None? && c.batchCount == 0
    ensures forall batchSize :: Inv(c, batchSize)
  {
    Coordinator([], 0, true, None, [])
  }

  lemma OnDataKeepsInv(s: Coordinator, batchSize: int, rec: Record)
    requires batchSize >= 1 && Inv(s, batchSize)
    ensures Inv(OnData(s, batchSize, rec), batchSize)
  {
  }

  lemma {:induction false} FeedKeepsInv(s: Coordinator, batchSize: int, recs: seq<Record>)
    requires batchSize >= 1 && Inv(s, batchSize)
    ensures Inv(Feed(s, batchSize, recs), batchSize)
    decreases |recs|
  {
    if recs != [] {
      OnDataKeepsInv(s, batchSize, recs[0]);
      FeedKeepsInv(OnData(s, batchSize, recs[0]), batchSize, recs[1..]);
    }
  }

  /**
    After every `data` event of a run with a positive batch size the buffer
    holds between one and `batchSize` rows, and every batch scheduled so far
    is full, non-last and numbered by its position.
   */
  lemma BufferBounded(batchSize: int, recs: seq<Record>)
    requires batchSize >= 1 && recs != []
    ensures var s := Feed(Init(), batchSize, recs);
            && 1 <= |s.buf| <= batchSize
            && s.batchCount == |s.scheduled|
            && FullBatches(s.scheduled, batchSize)
  {
    FeedKeepsInv(Init(), batchSize, recs);
  }

  /** How many of the `data` events over `recs` call resolveHeaders. */
  function HeaderResolutions(s: Coordinator, batchSize: int, recs: seq<Record>): nat
    decreases |recs|
  {
    if recs == [] then 0
    else (if s.isFirstChunk then 1 else 0) + HeaderResolutions(OnData(s, batchSize, recs[0]), batchSize, recs[1..])
  }

  lemma {:induction false} NoResolutionAfterFirst(s: Coordinator, batchSize: int, recs: seq<Record>)
    requires !s.isFirstChunk
    ensures HeaderResolutions(s, batchSize, recs) == 0
    decreases |recs|
  {
    if recs != [] {
      NoResolutionAfterFirst(OnData(s, batchSize, recs[0]), batchSize, recs[1..]);
    }
  }

  /**
    The header promise is resolved exactly once when at least one record
    arrives, and never otherwise; its value is the key list of the first
    record, whatever later records hold.
   */
  lemma HeaderResolvedOnce(batchSize: int, recs: seq<Record>)
    ensures HeaderResolutions(Init(), batchSize, recs) == (if recs == [] then 0 else 1)
    ensures Feed(Init(), batchSize, recs).header == (if recs == [] then None else Some(KeysOf(recs[0])))
  {
    if recs != [] {
      NoResolutionAfterFirst(OnData(Init(), batchSize, recs[0]), batchSize, recs[1..]);
    }
  }
}

=== FILE: completion.dfy ===
/**
  The promise bookkeeping of csvBatchRead as a state machine over task
  statuses. `shouldResolve` holds the header task `headerResolved` followed
  by one task per scheduled batch; each batch task is chained on the header
  task, the run settles through `Promise.all(shouldResolve)` once the parser
  has ended, or rejects at once on a stream `error`. Handler calls and
  parser events are environment events; microtask interleaving is not
  modelled, only which statuses may follow which.
 */
module Completion {
  import opened Batching

  /** The state of one promise in shouldResolve. */
  datatype Status = Pending | Fulfilled | Rejected(reason: string)

  /** How a handler call ends: it returns (or its promise fulfils), or it throws (or its promise rejects). */
  datatype Outcome = Returned | Threw(reason: string)

  /** The state of the promise csvBatchRead returns. */
  datatype Settlement = Unsettled | Resolved | RejectedWith(reason: string)

  /** The parsed stream: still emitting, after `end`, or after `error`. */
  datatype Stream = Open | Ended | Failed(reason: string)

  /**
    One run. `headerTask` is `headerResolved`; `batchTasks[i]` is the task
    chained for `coord.scheduled[i]`.
   */
  datatype RunState = RunState(
    batchSize: int,
    coord: Coordinator,
    stream: Stream,
    headerTask: Status,
    batchTasks: seq<Status>,
    settlement: Settlement)

  datatype Event =
    | Data(record: Record)
    | End
    | StreamError(reason: string)
      /** handleHeader, started once headerPromise has resolved, settles. */
    | HeaderHandlerSettles(outcome: Outcome)
      /** handleBatch for batch `index`, started once headerResolved has fulfilled, settles. */
    | BatchHandlerSettles(index: nat, outcome: Outcome)

  /**
    The closure state when csvBatchRead returns its promise: the stream open,
    shouldResolve holding only the pending header task, the run unsettled.
   */
  function Initial(batchSize: int): (r: RunState)
    ensures r.batchSize == batchSize && r.coord == Init()
    ensures r.stream.Open? && Tasks(r) == [Pending] && r.settlement.Unsettled?
    ensures Inv(r)
  {
    RunState(batchSize, Init(), Open, Pending, [], Unsettled)
  }

  function StatusOf(o: Outcome): Status {
    match o
    case Returned => Fulfilled
    case Threw(reason) => Rejected(reason)
  }

  /**
    The status a task `headerResolved.then(...)` starts with. A chain on a
    rejected header task rejects with the same reason, without calling
    handleBatch, in a microtask that runs before the next parser event and
    before Promise.all, subscribed later, reacts; otherwise it is pending.
   */
  function Chained(h: Status): (r: Status)
    ensures h.Rejected? ==> r == h
    ensures !h.Rejected? ==> r.Pending?
  {
    if h.Rejected? then h else Pending
  }

  /**
    The batch tasks once a rejection of headerResolved has reached them:
    every pending one rejects with that reason, settled ones are untouched.
   */
  function RejectPending(ts: seq<Status>, reason: string): (r: seq<Status>)
    ensures |r| == |ts|
    ensures forall i :: 0 <= i < |ts| && ts[i].Pending? ==> r[i] == Rejected(reason)
    ensures forall i :: 0 <= i < |ts| && !ts[i].Pending? ==> r[i] == ts[i]
  {
    seq(|ts|, i requires 0 <= i < |ts| => if ts[i].Pending? then Rejected(reason) else ts[i])
  }

  /** The contents of shouldResolve, in push order. */
  function Tasks(s: RunState): seq<Status> {
    [s.headerTask] + s.batchTasks
  }

  predicate AllFulfilled(ts: seq<Status>) {
    forall i :: 0 <= i < |ts| ==> ts[i].Fulfilled?
  }

  predicate AllPending(ts: seq<Status>) {
    forall i :: 0 <= i < |ts| ==> ts[i].Pending?
  }

  predicate AnyRejected(ts: seq<Status>) {
    exists i :: 0 <= i < |ts| && ts[i].Rejected?
  }

  predicate RejectedIn(ts: seq<Status>, reason: string) {
    exists i :: 0 <= i < |ts| && ts[i] == Rejected(reason)
  }

  /** The reason of the lowest-indexed rejected task, if any. */
  function FirstRejection(ts: seq<Status>): (r: Option<string>)
    ensures r.None? <==> !AnyRejected(ts)
    ensures r.Some? ==> exists i :: 0 <= i < |ts| && ts[i] == Rejected(r.value)
                                   && forall j :: 0 <= j < i ==> !ts[j].Rejected?
  {
    if ts == [] then None
    else if ts[0].Rejected? then Some(ts[0].reason)
    else
      var r := FirstRejection(ts[1..]);
      assert forall i :: 1 <= i < |ts| ==> ts[i] == ts[1..][i - 1];
      r
  }

  /**
    Where `Promise.all` over the given members stands: fulfilled once every
    member has fulfilled, rejected with the first rejection, and pending
    otherwise.
   */
  function AllSettlement(ts: seq<Status>): (r: Settlement)
    ensures r.Resolved? <==> AllFulfilled(ts)
    ensures r.RejectedWith? ==> RejectedIn(ts, r.reason)
    ensures r.Unsettled? <==> !AllFulfilled(ts) && !AnyRejected(ts)
  {
    if AllFulfilled(ts) then Resolved
    else match FirstRejection(ts)
      case Some(reason) => RejectedWith(reason)
      case None => Unsettled
  }

  /**
    Promise.all(shouldResolve), created by the `end` handler, settles the run
    when it can. Nothing but the settlement changes; before `end`, or once
    the run has settled, nothing changes at all; after `end` an unsettled run
    takes on where Promise.all over the tasks stands.
   */
  function Gate(s: RunState): (t: RunState)
    ensures t == s.(settlement := t.settlement)
    ensures !s.stream.Ended? || !s.settlement.Unsettled? ==> t == s
    ensures s.stream.Ended? && s.settlement.Unsettled? ==>
              && (t.settlement.Resolved? <==> AllFulfilled(Tasks(s)))
              && (t.settlement.RejectedWith? ==> RejectedIn(Tasks(s), t.settlement.reason))
              && (t.settlement.Unsettled? <==> !AllFulfilled(Tasks(s)) && !AnyRejected(Tasks(s)))
  {
    if s.stream.Ended? && s.settlement.Unsettled? then s.(settlement := AllSettlement(Tasks(s))) else s
  }

  /**
    The direct effect of one event, before Promise.all reacts.
    - Parser events move the coordinator only while the stream is open, and
      every batch it schedules gets one new task chained on the header task.
    - A settled task keeps its status. The header handler settles only once
      headerPromise has resolved. A batch task settles only once the header
      task has, and fulfils only if the header task fulfilled. A header
      rejection reaches every pending batch task at once.
    - The settlement changes only when an `error` rejects an unsettled run.
   */
  function Handle(s: RunState, e: Event): (t: RunState)
    ensures t.batchSize == s.batchSize
    ensures !s.stream.Open? ==> t.coord == s.coord && t.stream == s.stream
    ensures t.coord != s.coord ==> s.stream.Open? && (e.Data? || e.End?)
    ensures |t.batchTasks| - |s.batchTasks| == |t.coord.scheduled| - |s.coord.scheduled|
    ensures |s.batchTasks| <= |t.batchTasks|
    ensures forall i :: |s.batchTasks| <= i < |t.batchTasks| ==> t.batchTasks[i] == Chained(s.headerTask)
    ensures !s.headerTask.Pending? ==> t.headerTask == s.headerTask
    ensures t.headerTask != s.headerTask ==> s.coord.header.Some?
    ensures forall i :: 0 <= i < |s.batchTasks| && !s.batchTasks[i].Pending? ==> t.batchTasks[i] == s.batchTasks[i]
    ensures forall i :: 0 <= i < |s.batchTasks| && t.batchTasks[i] != s.batchTasks[i] ==>
              !t.headerTask.Pending? && (t.batchTasks[i].Fulfilled? ==> t.headerTask.Fulfilled?)
    ensures s.headerTask.Pending? && t.headerTask.Rejected? ==>
              forall i :: 0 <= i < |s.batchTasks| && s.batchTasks[i].Pending? ==> t.batchTasks[i] == t.headerTask
    ensures t.settlement != s.settlement ==>
              s.settlement.Unsettled? && s.stream.Open? && e.StreamError? && t.settlement == RejectedWith(e.reason)
  {
    match e
    case Data(rec) =>
      if !s.stream.Open? then s
      else
        var c := OnData(s.coord, s.batchSize, rec);
        s.(coord := c,
           batchTasks := if c.scheduled == s.coord.scheduled then s.batchTasks else s.batchTasks + [Chained(s.headerTask)])
    case End =>
      if !s.stream.Open? then s
      else s.(coord := OnEnd(s.coord), stream := Ended, batchTasks := s.batchTasks + [Chained(s.headerTask)])
    case StreamError(reason) =>
      if !s.stream.Open? then s
      else s.(stream := Failed(reason),
              settlement := if s.settlement.Unsettled? then RejectedWith(reason) else s.settlement)
    case HeaderHandlerSettles(o) =>
      if !(s.coord.header.Some? && s.headerTask.Pending?) then s
      else if o.Returned? then s.(headerTask := Fulfilled)
      else s.(headerTask := Rejected(o.reason), batchTasks := RejectPending(s.batchTasks, o.reason))
    case BatchHandlerSettles(i, o) =>
      if i < |s.batchTasks| && s.batchTasks[i].Pending? && s.headerTask.Fulfilled?
      then s.(batchTasks := s.batchTasks[i := StatusOf(o)])
      else s
  }

  /**
    One event followed by Promise.all's reaction. shouldResolve only grows,
    settled tasks keep their status, a closed stream stays closed with its
    coordinator frozen, a settled run stays settled, and a run that settles
    here resolves only through Promise.all over fulfilled tasks and rejects
    only with an `error` or a rejected task. That every event preserves the
    full run invariant is `StepKeepsInv`.
   */
  function Step(s: RunState, e: Event): (t: RunState)
    ensures t.batchSize == s.batchSize
    ensures !s.stream.Open? ==> t.coord == s.coord && t.stream == s.stream
    ensures |s.batchTasks| <= |t.batchTasks|
    ensures !s.headerTask.Pending? ==> t.headerTask == s.headerTask
    ensures forall i :: 0 <= i < |s.batchTasks| && !s.batchTasks[i].Pending? ==> t.batchTasks[i] == s.batchTasks[i]
    ensures !s.settlement.Unsettled? ==> t.settlement == s.settlement
    ensures s.settlement.Unsettled? && t.settlement.Resolved? ==> t.stream.Ended? && AllFulfilled(Tasks(t))
    ensures s.settlement.Unsettled? && t.settlement.RejectedWith? ==>
              t.stream == Failed(t.settlement.reason) || (t.stream.Ended? && RejectedIn(Tasks(t), t.settlement.reason))
  {
    Gate(Handle(s, e))
  }

  function Steps(s: RunState, es: seq<Event>): RunState
    decreases |es|
  {
    if es == [] then s else Steps(Step(s, es[0]), es[1..])
  }

  /** What holds between an event and Promise.all's reaction to it. */
  ghost predicate Core(s: RunState) {
    && |s.batchTasks| == |s.coord.scheduled|
    && (s.coord.isFirstChunk <==> s.coord.header.None?)
    // no record yet: nothing buffered, and at most the empty last batch scheduled
    && (s.coord.header.None? ==>
          && s.coord.buf == [] && s.coord.batchCount == 0
          && s.coord.scheduled == (if s.stream.Ended? then [Batch([], 0, true)] else []))
    // the header handler starts only once headerPromise has resolved
    && (s.coord.header.None? ==> s.headerTask.Pending?)
    // batch tasks settle only after the header task has
    && (forall i :: 0 <= i < |s.batchTasks| && !s.batchTasks[i].Pending? ==> !s.headerTask.Pending?)
    && (forall i :: 0 <= i < |s.batchTasks| && s.batchTasks[i].Fulfilled? ==> s.headerTask.Fulfilled?)
    // a rejected header task has rejected every batch task with its reason
    && (s.headerTask.Rejected? ==> forall i :: 0 <= i < |s.batchTasks| ==> s.batchTasks[i] == s.headerTask)
    // the run settles only through an error event or Promise.all
    && (s.stream.Open? ==> s.settlement.Unsettled?)
    && (s.stream.Failed? ==> s.settlement == RejectedWith(s.stream.reason))
    && (s.settlement.Resolved? ==> s.stream.Ended? && AllFulfilled(Tasks(s)))
    && (s.stream.Ended? && s.settlement.RejectedWith? ==> RejectedIn(Tasks(s), s.settlement.reason))
  }

  /** What holds of every state a run can reach. */
  ghost predicate Inv(s: RunState) {
    && Core(s)
    && (s.stream.Ended? && s.settlement.Unsettled? ==> AllSettlement(Tasks(s)).Unsettled?)
  }

  /** Replacing a pending member keeps every rejection that was there. */
  lemma ReplacePendingKeepsRejection(ts: seq<Status>, i: nat, v: Status, reason: string)
    requires i < |ts| && ts[i].Pending? && RejectedIn(ts, reason)
    ensures RejectedIn(ts[i := v], reason)
  {
    var j :| 0 <= j < |ts| && ts[j] == Rejected(reason);
    assert ts[i := v][j] == Rejected(reason);
  }

  /** Rejecting the pending members keeps every rejection that was there. */
  lemma RejectPendingKeepsRejection(ts: seq<Status>, reason: string, old_reason: string)
    requires RejectedIn(ts, old_reason)
    ensures RejectedIn(RejectPending(ts, reason), old_reason)
  {
    var j :| 0 <= j < |ts| && ts[j] == Rejected(old_reason);
    assert RejectPending(ts, reason)[j] == Rejected(old_reason);
  }

  lemma GateKeepsInv(s: RunState)
    requires Core(s)
    ensures Inv(Gate(s))
  {
  }

  lemma DataKeepsInv(s: RunState, rec: Record)
    requires Inv(s)
    ensures Inv(Handle(s, Data(rec)))
  {
    if s.stream.Open? {
      var t := Handle(s, Data(rec));
      assert forall i :: 0 <= i < |s.batchTasks| ==> t.batchTasks[i] == s.batchTasks[i];
    }
  }

  lemma EndKeepsInv(s: RunState)
    requires Inv(s)
    ensures Inv(Gate(Handle(s, End)))
  {
    if s.stream.Open? {
      var t := Handle(s, End);
      assert forall i :: 0 <= i < |s.batchTasks| ==> t.batchTasks[i] == s.batchTasks[i];
      assert Core(t) by {
        if s.coord.header.None? {
          assert s.coord.scheduled == [];
          assert t.coord.scheduled == [Batch([], 0, true)];
        }
      }
      GateKeepsInv(t);
    }
  }

  lemma HeaderSettlesKeepsInv(s: RunState, o: Outcome)
    requires Inv(s)
    ensures Inv(Gate(Handle(s, HeaderHandlerSettles(o))))
  {
    var t := Handle(s, HeaderHandlerSettles(o));
    if s.coord.header.Some? && s.headerTask.Pending? {
      assert Tasks(s)[0] == s.headerTask;
      if o.Returned? {
        assert Tasks(t) == Tasks(s)[0 := Fulfilled];
        if s.stream.Ended? && s.settlement.RejectedWith? {
          ReplacePendingKeepsRejection(Tasks(s), 0, Fulfilled, s.settlement.reason);
        }
      } else {
        assert Tasks(t) == RejectPending(Tasks(s), o.reason);
        if s.stream.Ended? && s.settlement.RejectedWith? {
          RejectPendingKeepsRejection(Tasks(s), o.reason, s.settlement.reason);
        }
      }
      assert Core(t);
    }
    GateKeepsInv(t);
  }

  lemma BatchSettlesKeepsInv(s: RunState, i: nat, v: Status)
    requires Inv(s)
    requires i < |s.batchTasks| && s.batchTasks[i].Pending?
    requires v.Fulfilled? ==> s.headerTask.Fulfilled?
    requires !s.headerTask.Pending?
    ensures Inv(Gate(s.(batchTasks := s.batchTasks[i := v])))
  {
    var t := s.(batchTasks := s.batchTasks[i := v]);
    assert Tasks(t) == Tasks(s)[i + 1 := v];
    if s.stream.Ended? && s.settlement.RejectedWith? {
      ReplacePendingKeepsRejection(Tasks(s), i + 1, v, s.settlement.reason);
    }
    assert Tasks(s)[i + 1] == s.batchTasks[i];
    assert Core(t);
    GateKeepsInv(t);
  }

  lemma StepKeepsInv(s: RunState, e: Event)
    requires Inv(s)
    ensures Inv(Step(s, e))
  {
    match e
    case Data(rec) =>
      DataKeepsInv(s, rec);
      GateKeepsInv(Handle(s, e));
    case End =>
      EndKeepsInv(s);
    case StreamError(reason) =>
      GateKeepsInv(Handle(s, e));
    case HeaderHandlerSettles(o) =>
      HeaderSettlesKeepsInv(s, o);
    case BatchHandlerSettles(i, o) =>
      if i < |s.batchTasks| && s.batchTasks[i].Pending? && s.headerTask.Fulfilled? {
        BatchSettlesKeepsInv(s, i, StatusOf(o));
      } else {
        GateKeepsInv(s);
      }
  }

  lemma {:induction false} StepsKeepInv(s: RunState, es: seq<Event>)
    requires Inv(s)
    ensures Inv(Steps(s, es))
    decreases |es|
  {
    if es != [] {
      StepKeepsInv(s, es[0]);
      StepsKeepInv(Step(s, es[0]), es[1..]);
    }
  }

  /** Every state a run reaches from its start satisfies the invariant. */
  lemma Reachable(batchSize: int, es: seq<Event>)
    ensures Inv(Steps(Initial(batchSize), es))
  {
    StepsKeepInv(Initial(batchSize), es);
  }

  lemma {:induction false} StepsAppend(s: RunState, a: seq<Event>, b: seq<Event>)
    ensures Steps(s, a + b) == Steps(Steps(s, a), b)
    decreases |a|
  {
    if a == [] {
      assert a + b == b;
    } else {
      assert (a + b)[0] == a[0] && (a + b)[1..] == a[1..] + b;
      StepsAppend(Step(s, a[0]), a[1..], b);
    }
  }

  lemma StepsSnoc(s: RunState, a: seq<Event>, e: Event)
    ensures Steps(s, a + [e]) == Step(Steps(s, a), e)
  {
    StepsAppend(s, a, [e]);
    assert [e][1..] == [];
  }

  /**
    No batch task settles before the header task has, no batch handler runs
    unless the header handler succeeded, a header rejection has rejected every
    batch task with its reason, and nothing at all settles while
    headerPromise is unresolved.
   */
  lemma HeaderGatesBatches(batchSize: int, es: seq<Event>)
    ensures var t := Steps(Initial(batchSize), es);
            && (t.coord.header.None? ==> t.headerTask.Pending? && AllPending(t.batchTasks))
            && (forall i :: 0 <= i < |t.batchTasks| && !t.batchTasks[i].Pending? ==> !t.headerTask.Pending?)
            && (forall i :: 0 <= i < |t.batchTasks| && t.batchTasks[i].Fulfilled? ==> t.headerTask.Fulfilled?)
            && (t.headerTask.Rejected? ==> forall i :: 0 <= i < |t.batchTasks| ==> t.batchTasks[i] == t.headerTask)
  {
    Reachable(batchSize, es);
  }

  /**
    The run resolves exactly when the stream has ended and the header task
    and every batch task in shouldResolve have fulfilled; in particular it
    never resolves while any of them is pending.
   */
  lemma ResolvesIffAllFulfilled(batchSize: int, es: seq<Event>)
    ensures var t := Steps(Initial(batchSize), es);
            t.settlement.Resolved? <==> t.stream.Ended? && AllFulfilled(Tasks(t))
  {
    Reachable(batchSize, es);
    NoRejectionWhenAllFulfilled(Tasks(Steps(Initial(batchSize), es)));
  }

  lemma NoRejectionWhenAllFulfilled(ts: seq<Status>)
    ensures AllFulfilled(ts) ==> !AnyRejected(ts) && forall reason :: !RejectedIn(ts, reason)
  {
  }

  /**
    The run rejects only with the reason of a stream error or of a rejected
    task; a stream error always rejects it, and so does any rejected task
    once the stream has ended.
   */
  lemma RejectionCauses(batchSize: int, es: seq<Event>)
    ensures var t := Steps(Initial(batchSize), es);
            && (t.settlement.RejectedWith? ==>
                  t.stream == Failed(t.settlement.reason)
                  || (t.stream.Ended? && RejectedIn(Tasks(t), t.settlement.reason)))
            && (t.stream.Failed? ==> t.settlement == RejectedWith(t.stream.reason))
            && (t.stream.Ended? && AnyRejected(Tasks(t)) ==> t.settlement.RejectedWith?)
  {
    Reachable(batchSize, es);
    NoRejectionWhenAllFulfilled(Tasks(Steps(Initial(batchSize), es)));
  }

  /**
    Over any run of events, a task that has settled keeps its status, and
    shouldResolve only grows.
   */
  lemma {:induction false} SettledTasksStaySettled(s: RunState, es: seq<Event>)
    ensures var t := Steps(s, es);
            && (!s.headerTask.Pending? ==> t.headerTask == s.headerTask)
            && |s.batchTasks| <= |t.batchTasks|
            && forall i :: 0 <= i < |s.batchTasks| && !s.batchTasks[i].Pending? ==> t.batchTasks[i] == s.batchTasks[i]
    decreases |es|
  {
    if es != [] {
      SettledTasksStaySettled(Step(s, es[0]), es[1..]);
    }
  }

  /** Once the run has settled, no later event changes how. */
  lemma {:induction false} SettlementIsFinal(s: RunState, more: seq<Event>)
    requires !s.settlement.Unsettled?
    ensures Steps(s, more).settlement == s.settlement
    decreases |more|
  {
    if more != [] {
      SettlementIsFinal(Step(s, more[0]), more[1..]);
    }
  }

  /** After `end` or `error` no event schedules a batch or touches the buffer. */
  lemma {:induction false} ClosedStreamFreezesBatching(s: RunState, more: seq<Event>)
    requires !s.stream.Open?
    ensures Steps(s, more).coord == s.coord && Steps(s, more).stream == s.stream
    decreases |more|
  {
    if more != [] {
      ClosedStreamFreezesBatching(Step(s, more[0]), more[1..]);
    }
  }

  /**
    A stream error rejects the run with its reason, no batch is scheduled
    after it, and nothing later changes the rejection.
   */
  lemma StreamErrorRejects(batchSize: int, es: seq<Event>, reason: string, more: seq<Event>)
    requires Steps(Initial(batchSize), es).stream.Open?
    ensures var t := Steps(Initial(batchSize), es);
            var u := Steps(Step(t, StreamError(reason)), more);
            && u.settlement == RejectedWith(reason)
            && u.coord == t.coord
  {
    var t := Steps(Initial(batchSize), es);
    Reachable(batchSize, es);
    StepKeepsInv(t, StreamError(reason));
    SettlementIsFinal(Step(t, StreamError(reason)), more);
    ClosedStreamFreezesBatching(Step(t, StreamError(reason)), more);
  }

  /**
    A handler that throws before `end` leaves its task rejected while the run
    stays unsettled: nothing observes the rejection until `end` attaches
    Promise.all, which then rejects with it.
   */
  lemma EarlyRejectionWaitsForEnd(batchSize: int, rec: Record, reason: string)
    ensures var t := Steps(Initial(batchSize), [Data(rec), HeaderHandlerSettles(Threw(reason))]);
            && t.stream.Open? && t.settlement.Unsettled? && t.headerTask == Rejected(reason)
            && Step(t, End).settlement == RejectedWith(reason)
  {
    var es := [Data(rec), HeaderHandlerSettles(Threw(reason))];
    var s1 := Step(Initial(batchSize), Data(rec));
    assert Steps(Initial(batchSize), es) == Steps(s1, es[1..]);
    var t := Step(s1, HeaderHandlerSettles(Threw(reason)));
    assert Steps(s1, es[1..]) == Steps(t, []);
    var h := Handle(t, End);
    assert Tasks(h)[0] == Rejected(reason);
    assert FirstRejection(Tasks(h)) == Some(reason);
  }

  lemma NothingSettledYet(ts: seq<Status>)
    requires ts != [] && AllPending(ts)
    ensures !AllFulfilled(ts) && !AnyRejected(ts) && forall reason :: !RejectedIn(ts, reason)
  {
    assert !ts[0].Fulfilled?;
  }

  lemma StuckStep(s: RunState, e: Event)
    requires Inv(s) && s.stream.Ended? && s.coord.header.None?
    ensures Step(s, e) == s
  {
    assert Tasks(s) == [Pending, Pending];
    assert AllSettlement(Tasks(s)) == Unsettled by {
      assert Tasks(s)[0].Pending?;
    }
  }

  lemma {:induction false} StuckSteps(s: RunState, more: seq<Event>)
    requires Inv(s) && s.stream.Ended? && s.coord.header.None?
    ensures Steps(s, more) == s
    decreases |more|
  {
    if more != [] {
      StuckStep(s, more[0]);
      StuckSteps(s, more[1..]);
    }
  }

  /**
    A stream that ends before any record leaves headerPromise unresolved
    forever: the empty last batch 0 stays scheduled behind a header task that
    never starts, no event changes anything, and the run never settles.
   */
  lemma NoRecordsNeverSettle(batchSize: int, es: seq<Event>, more: seq<Event>)
    requires Steps(Initial(batchSize), es).stream.Ended?
    requires Steps(Initial(batchSize), es).coord.header.None?
    ensures var t := Steps(Initial(batchSize), es);
            && t.coord.scheduled == [Batch([], 0, true)]
            && t.headerTask.Pending? && t.batchTasks == [Pending]
            && Steps(t, more) == t
            && t.settlement.Unsettled?
  {
    var t := Steps(Initial(batchSize), es);
    Reachable(batchSize, es);
    assert Tasks(t) == [Pending, Pending];
    NothingSettledYet(Tasks(t));
    StuckSteps(t, more);
  }

  /** One `data` event per record. */
  function DataEvents(recs: seq<Record>): seq<Event> {
    seq(|recs|, i requires 0 <= i < |recs| => Data(recs[i]))
  }

  /** A state where the stream is open and no handler has settled yet. */
  ghost predicate Untouched(s: RunState) {
    && s.stream.Open? && s.headerTask.Pending? && s.settlement.Unsettled?
    && |s.batchTasks| == |s.coord.scheduled| && AllPending(s.batchTasks)
  }

  lemma {:induction false} DataEventsFeed(s: RunState, recs: seq<Record>)
    requires Untouched(s)
    ensures var t := Steps(s, DataEvents(recs));
            && Untouched(t) && t.batchSize == s.batchSize
            && t.coord == Feed(s.coord, s.batchSize, recs)
    decreases |recs|
  {
    if recs != [] {
      var es := DataEvents(recs);
      assert es[0] == Data(recs[0]) && es[1..] == DataEvents(recs[1..]);
      DataEventsFeed(Step(s, Data(recs[0])), recs[1..]);
    }
  }

  /**
    The stream events of a run that ends normally drive the batching step
    machine: after every `data` event and the `end` event the coordinator is
    exactly Batching.Run, with one pending task per scheduled batch.
   */
  lemma StreamEventsRunBatching(batchSize: int, recs: seq<Record>)
    ensures var t := Steps(Initial(batchSize), DataEvents(recs) + [End]);
            && t.coord == Run(batchSize, recs)
            && t.stream.Ended? && t.headerTask.Pending?
            && |t.batchTasks| == |t.coord.scheduled| && AllPending(t.batchTasks)
            && t.settlement.Unsettled?
  {
    var s0 := Initial(batchSize);
    DataEventsFeed(s0, recs);
    StepsAppend(s0, DataEvents(recs), [End]);
    var t1 := Steps(s0, DataEvents(recs));
    assert Steps(t1, [End]) == Step(t1, End);
    EndAfterUntouched(t1);
  }

  lemma EndAfterUntouched(s: RunState)
    requires Untouched(s)
    ensures var t := Step(s, End);
            && t.coord == OnEnd(s.coord)
            && t.stream.Ended? && t.headerTask.Pending?
            && |t.batchTasks| == |t.coord.scheduled| && AllPending(t.batchTasks)
            && t.settlement.Unsettled?
  {
    var h := Handle(s, End);
    assert Tasks(h)[0].Pending?;
    assert AllPending(Tasks(h));
  }

  /** Every batch handler, in index order, from `k` up to `n`. */
  function BatchReturnsFrom(k: nat, n: nat): seq<Event>
    requires k <= n
  {
    seq(n - k, j requires 0 <= j < n - k => BatchHandlerSettles(k + j, Returned))
  }

  lemma {:induction false} BatchReturnsResolve(s: RunState, k: nat)
    requires s.stream.Ended? && s.headerTask.Fulfilled? && s.settlement.Unsettled?
    requires k < |s.batchTasks|
    requires forall i :: 0 <= i < k ==> s.batchTasks[i].Fulfilled?
    requires forall i :: k <= i < |s.batchTasks| ==> s.batchTasks[i].Pending?
    ensures Steps(s, BatchReturnsFrom(k, |s.batchTasks|)).settlement == Resolved
    decreases |s.batchTasks| - k
  {
    var n := |s.batchTasks|;
    var es := BatchReturnsFrom(k, n);
    assert es[0] == BatchHandlerSettles(k, Returned);
    var h := Handle(s, es[0]);
    assert h.batchTasks == s.batchTasks[k := Fulfilled];
    if k + 1 == n {
      assert AllFulfilled(Tasks(h));
      assert es[1..] == [];
    } else {
      assert Tasks(h)[k + 2].Pending?;
      assert !AnyRejected(Tasks(h));
      assert es[1..] == BatchReturnsFrom(k + 1, n);
      BatchReturnsResolve(Step(s, es[0]), k + 1);
    }
  }

  lemma HeaderReturnsAfterEnd(s: RunState)
    requires s.stream.Ended? && s.coord.header.Some? && s.headerTask.Pending? && s.settlement.Unsettled?
    requires s.batchTasks != [] && AllPending(s.batchTasks)
    ensures var t := Step(s, HeaderHandlerSettles(Returned));
            && t.stream.Ended? && t.headerTask.Fulfilled? && t.settlement.Unsettled?
            && t.batchTasks == s.batchTasks
  {
    var h := Handle(s, HeaderHandlerSettles(Returned));
    assert Tasks(h)[1].Pending?;
    assert !AnyRejected(Tasks(h));
  }

  /**
    When at least one record arrives and every handler returns, the run
    resolves once the header handler and then each batch handler have
    returned.
   */
  lemma AllHandlersReturnResolves(batchSize: int, recs: seq<Record>)
    requires recs != []
    ensures var n := |Run(batchSize, recs).scheduled|;
            Steps(Initial(batchSize),
                  DataEvents(recs) + [End] + [HeaderHandlerSettles(Returned)] + BatchReturnsFrom(0, n)).settlement
            == Resolved
  {
    var s0 := Initial(batchSize);
    var n := |Run(batchSize, recs).scheduled|;
    var ended := DataEvents(recs) + [End];
    StreamEventsRunBatching(batchSize, recs);
    StepsSnoc(s0, ended, HeaderHandlerSettles(Returned));
    StepsAppend(s0, ended + [HeaderHandlerSettles(Returned)], BatchReturnsFrom(0, n));
    var t2 := Steps(s0, ended);
    HeaderReturnsAfterEnd(t2);
    BatchReturnsResolve(Step(t2, HeaderHandlerSettles(Returned)), 0);
  }

  /**
    When the header handler throws, the run rejects with its reason as soon
    as the header task settles, before any batch handler could run.
   */
  lemma HeaderFailureRejects(batchSize: int, recs: seq<Record>, reason: string)
    requires recs != []
    ensures var t := Steps(Initial(batchSize), DataEvents(recs) + [End] + [HeaderHandlerSettles(Threw(reason))]);
            && t.settlement == RejectedWith(reason)
            && |t.batchTasks| == |Run(batchSize, recs).scheduled|
            && forall i :: 0 <= i < |t.batchTasks| ==> t.batchTasks[i] == Rejected(reason)
  {
    var s0 := Initial(batchSize);
    var ended := DataEvents(recs) + [End];
    StreamEventsRunBatching(batchSize, recs);
    StepsSnoc(s0, ended, HeaderHandlerSettles(Threw(reason)));
    HeaderThrowsAfterEnd(Steps(s0, ended), reason);
  }

  lemma HeaderThrowsAfterEnd(s: RunState, reason: string)
    requires s.stream.Ended? && s.coord.header.Some? && s.headerTask.Pending? && s.settlement.Unsettled?
    requires AllPending(s.batchTasks)
    ensures var t := Step(s, HeaderHandlerSettles(Threw(reason)));
            && t.settlement == RejectedWith(reason) && |t.batchTasks| == |s.batchTasks|
            && forall i :: 0 <= i < |t.batchTasks| ==> t.batchTasks[i] == Rejected(reason)
  {
    var h := Handle(s, HeaderHandlerSettles(Threw(reason)));
    assert Tasks(h)[0] == Rejected(reason);
    assert FirstRejection(Tasks(h)) == Some(reason);
  }
}

=== FILE: reference.dfy ===
/**
  An independent description of what csvBatchRead hands to `handleBatch`:
  the input cut into consecutive chunks of `batchSize` rows, the last chunk
  holding the remainder, numbered from 0 with only the last flagged. The
  lemmas here connect it to the step machine of module Batching and derive
  the batch-boundary guarantees from it.
 */
module Reference {
  import opened Batching

  /** The rows cut into consecutive chunks of `size`; the last may be shorter, and is empty only for empty input. */
  function Chunks(rows: seq<Record>, size: int): seq<seq<Record>>
    requires size >= 1
    decreases |rows|
  {
    if |rows| <= size then [rows] else [rows[..size]] + Chunks(rows[size..], size)
  }

  /** Chunks as batch calls numbered from `from`, with only the last one flagged. */
  function NumberedFrom(cs: seq<seq<Record>>, from: nat): seq<Batch> {
    seq(|cs|, i requires 0 <= i < |cs| => Batch(cs[i], from + i, i == |cs| - 1))
  }

  /** The batch calls a run over `recs` is meant to schedule. */
  function Expected(recs: seq<Record>, batchSize: int): seq<Batch>
    requires batchSize >= 1
  {
    NumberedFrom(Chunks(recs, batchSize), 0)
  }

  lemma {:induction false} ChunksConcat(rows: seq<Record>, size: int)
    requires size >= 1
    ensures Concat(Chunks(rows, size)) == rows
    decreases |rows|
  {
    if |rows| <= size {
      assert Concat([rows]) == rows + Concat([]);
    } else {
      var cs := Chunks(rows, size);
      assert cs[0] == rows[..size] && cs[1..] == Chunks(rows[size..], size);
      ChunksConcat(rows[size..], size);
      assert rows == rows[..size] + rows[size..];
    }
  }

  lemma {:induction false} ChunksShape(rows: seq<Record>, size: int)
    requires size >= 1
    ensures |Chunks(rows, size)| >= 1
    ensures forall i :: 0 <= i < |Chunks(rows, size)| - 1 ==> |Chunks(rows, size)[i]| == size
    ensures |Chunks(rows, size)[|Chunks(rows, size)| - 1]| <= size
    ensures rows != [] ==> Chunks(rows, size)[|Chunks(rows, size)| - 1] != []
    ensures rows != [] ==> |Chunks(rows, size)| == (|rows| + size - 1) / size
    decreases |rows|
  {
    if |rows| > size {
      var rest := rows[size..];
      ChunksShape(rest, size);
      var cs := Chunks(rows, size);
      assert cs == [rows[..size]] + Chunks(rest, size);
      assert forall i :: 1 <= i < |cs| ==> cs[i] == Chunks(rest, size)[i - 1];
      DivStep(|rest| + size - 1, size);
    } else if rows != [] {
      DivOne(|rows| + size - 1, size);
    }
  }

  lemma DivStep(x: int, d: int)
    requires x >= 0 && d >= 1
    ensures (x + d) / d == x / d + 1
  {
    var q, r := x / d, x % d;
    assert x == q * d + r && 0 <= r < d;
    assert x + d == (q + 1) * d + r;
    DivUnique(x + d, d, q + 1, r);
  }

  lemma DivOne(x: int, d: int)
    requires d >= 1 && d <= x < 2 * d
    ensures x / d == 1
  {
    DivUnique(x, d, 1, x - d);
  }

  lemma DivUnique(x: int, d: int, q: int, r: int)
    requires d >= 1 && x == q * d + r && 0 <= r < d
    ensures x / d == q
  {
    var q', r' := x / d, x % d;
    assert x == q' * d + r' && 0 <= r' < d;
    if q' < q {
      MulGap(q', q, d);
      assert false;
    } else if q' > q {
      MulGap(q, q', d);
      assert false;
    }
  }

  lemma {:induction false} MulGap(a: int, b: int, d: int)
    requires a < b && d >= 1
    ensures a * d + d <= b * d
    decreases b - a
  {
    assert b * d == (b - 1) * d + d;
    if a < b - 1 {
      MulGap(a, b - 1, d);
    }
  }

  lemma NumberedCons(c: seq<Record>, cs: seq<seq<Record>>, from: nat)
    requires cs != []
    ensures NumberedFrom([c] + cs, from) == [Batch(c, from, false)] + NumberedFrom(cs, from + 1)
  {
    var l, r := NumberedFrom([c] + cs, from), [Batch(c, from, false)] + NumberedFrom(cs, from + 1);
    assert |l| == |r|;
    forall i | 0 <= i < |l|
      ensures l[i] == r[i]
    {
      if i > 0 {
        assert ([c] + cs)[i] == cs[i - 1];
      }
    }
  }

  lemma ChunksAfterFull(full: seq<Record>, tail: seq<Record>, size: int)
    requires size >= 1 && |full| == size && tail != []
    ensures Chunks(full + tail, size) == [full] + Chunks(tail, size)
  {
    var all := full + tail;
    assert all[..size] == full && all[size..] == tail;
  }

  lemma {:induction false} FeedThenEnd(s: Coordinator, batchSize: int, rest: seq<Record>)
    requires batchSize >= 1 && !s.isFirstChunk && 1 <= |s.buf| <= batchSize
    ensures OnEnd(Feed(s, batchSize, rest)).scheduled
            == s.scheduled + NumberedFrom(Chunks(s.buf + rest, batchSize), s.batchCount)
    decreases |rest|
  {
    if rest == [] {
      assert s.buf + rest == s.buf;
      assert NumberedFrom([s.buf], s.batchCount) == [Batch(s.buf, s.batchCount, true)];
    } else {
      var next := OnData(s, batchSize, rest[0]);
      assert Feed(s, batchSize, rest) == Feed(next, batchSize, rest[1..]);
      FeedThenEnd(next, batchSize, rest[1..]);
      var after := NumberedFrom(Chunks(next.buf + rest[1..], batchSize), next.batchCount);
      assert OnEnd(Feed(s, batchSize, rest)).scheduled == next.scheduled + after;
      if |s.buf| == batchSize {
        FlushStep(s, batchSize, rest, next, after);
      } else {
        assert next.buf + rest[1..] == s.buf + rest;
      }
    }
  }

  lemma Flushed(s: Coordinator, batchSize: int, rec: Record)
    requires |s.buf| == batchSize
    ensures var t := OnData(s, batchSize, rec);
            && t.buf == [rec] && t.batchCount == s.batchCount + 1
            && t.scheduled == s.scheduled + [Batch(s.buf, s.batchCount, false)]
  {
  }

  lemma FlushStep(s: Coordinator, batchSize: int, rest: seq<Record>, next: Coordinator, after: seq<Batch>)
    requires batchSize >= 1 && |s.buf| == batchSize && rest != []
    requires next == OnData(s, batchSize, rest[0])
    requires after == NumberedFrom(Chunks(next.buf + rest[1..], batchSize), next.batchCount)
    ensures next.scheduled + after == s.scheduled + NumberedFrom(Chunks(s.buf + rest, batchSize), s.batchCount)
  {
    var b0 := Batch(s.buf, s.batchCount, false);
    Flushed(s, batchSize, rest[0]);
    assert next.buf + rest[1..] == rest;
    var cs := Chunks(rest, batchSize);
    ChunksAfterFull(s.buf, rest, batchSize);
    NumberedCons(s.buf, cs, s.batchCount);
    calc {
      next.scheduled + after;
      (s.scheduled + [b0]) + NumberedFrom(cs, s.batchCount + 1);
      s.scheduled + ([b0] + NumberedFrom(cs, s.batchCount + 1));
      s.scheduled + NumberedFrom([s.buf] + cs, s.batchCount);
    }
  }

  /** The step machine schedules exactly the reference batches. */
  lemma RunMatchesReference(batchSize: int, recs: seq<Record>)
    requires batchSize >= 1
    ensures Run(batchSize, recs).scheduled == Expected(recs, batchSize)
  {
    if recs == [] {
      assert Expected(recs, batchSize) == [Batch([], 0, true)];
    } else {
      var first := OnData(Init(), batchSize, recs[0]);
      assert Feed(Init(), batchSize, recs) == Feed(first, batchSize, recs[1..]);
      FeedThenEnd(first, batchSize, recs[1..]);
      assert first.buf + recs[1..] == recs;
    }
  }

  /** Batch indices are 0, 1, 2, ... in scheduling order. */
  lemma IndicesContiguous(batchSize: int, recs: seq<Record>)
    requires batchSize >= 1
    ensures forall i :: 0 <= i < |Run(batchSize, recs).scheduled| ==> Run(batchSize, recs).scheduled[i].index == i
  {
    RunMatchesReference(batchSize, recs);
  }

  /** Exactly one batch is flagged last, and it is the one scheduled last. */
  lemma ExactlyOneLastBatch(batchSize: int, recs: seq<Record>)
    requires batchSize >= 1
    ensures var bs := Run(batchSize, recs).scheduled;
            && |bs| >= 1
            && forall i :: 0 <= i < |bs| ==> (bs[i].isLast <==> i == |bs| - 1)
  {
    RunMatchesReference(batchSize, recs);
    ChunksShape(recs, batchSize);
  }

  /** Every batch scheduled with isLast = false holds exactly batchSize rows. */
  lemma NonLastBatchesFull(batchSize: int, recs: seq<Record>)
    requires batchSize >= 1
    ensures var bs := Run(batchSize, recs).scheduled;
            forall i :: 0 <= i < |bs| && !bs[i].isLast ==> |bs[i].rows| == batchSize
  {
    RunMatchesReference(batchSize, recs);
    ChunksShape(recs, batchSize);
  }

  /**
    For a non-empty input the run schedules ceil(N / batchSize) batches and
    the last one holds between one and batchSize rows; for an empty input it
    schedules the single empty last batch 0.
   */
  lemma BatchCount(batchSize: int, recs: seq<Record>)
    requires batchSize >= 1
    ensures var bs := Run(batchSize, recs).scheduled;
            && (recs != [] ==>
                  |bs| == (|recs| + batchSize - 1) / batchSize && 1 <= |bs[|bs| - 1].rows| <= batchSize)
            && (recs == [] ==> bs == [Batch([], 0, true)])
  {
    RunMatchesReference(batchSize, recs);
    ChunksShape(recs, batchSize);
  }

  /** With batchSize 1 every record travels alone, in its own batch. */
  lemma BatchSizeOne(recs: seq<Record>)
    requires recs != []
    ensures var bs := Run(1, recs).scheduled;
            && |bs| == |recs|
            && forall i :: 0 <= i < |bs| ==> bs[i] == Batch([recs[i]], i, i == |recs| - 1)
  {
    RunMatchesReference(1, recs);
    ChunksOfOne(recs);
  }

  lemma {:induction false} ChunksOfOne(recs: seq<Record>)
    requires recs != []
    ensures |Chunks(recs, 1)| == |recs|
    ensures forall i :: 0 <= i < |recs| ==> Chunks(recs, 1)[i] == [recs[i]]
    decreases |recs|
  {
    if |recs| > 1 {
      var cs := Chunks(recs, 1);
      var rest := Chunks(recs[1..], 1);
      assert cs == [recs[..1]] + rest;
      ChunksOfOne(recs[1..]);
      forall i | 0 <= i < |recs|
        ensures cs[i] == [recs[i]]
      {
        if i > 0 {
          assert cs[i] == rest[i - 1] && recs[1..][i - 1] == recs[i];
        }
      }
    }
  }

  /** A batch size at least the record count gives one last batch with every record. */
  lemma BatchSizeCoversInput(batchSize: int, recs: seq<Record>)
    requires batchSize >= 1 && batchSize >= |recs|
    ensures Run(batchSize, recs).scheduled == [Batch(recs, 0, true)]
  {
    RunMatchesReference(batchSize, recs);
  }

  /** With a buffer already longer than batchSize no flush ever happens again. */
  lemma {:induction false} FeedNeverFlushes(s: Coordinator, batchSize: int, rest: seq<Record>)
    requires !s.isFirstChunk && batchSize < |s.buf|
    ensures Feed(s, batchSize, rest) == s.(buf := s.buf + rest)
    decreases |rest|
  {
    if rest == [] {
      assert s.buf + rest == s.buf;
    } else {
      var next := OnData(s, batchSize, rest[0]);
      FeedNeverFlushes(next, batchSize, rest[1..]);
      assert next.buf + rest[1..] == s.buf + rest;
    }
  }

  /**
    batchSize 0 is not rejected: the first record finds the empty buffer
    "full", so an empty non-last batch 0 goes out first, and every record
    lands in the last batch 1.
   */
  lemma BatchSizeZero(recs: seq<Record>)
    requires recs != []
    ensures Run(0, recs).scheduled == [Batch([], 0, false), Batch(recs, 1, true)]
  {
    var first := OnData(Init(), 0, recs[0]);
    assert Feed(Init(), 0, recs) == Feed(first, 0, recs[1..]);
    FeedNeverFlushes(first, 0, recs[1..]);
    assert first.buf + recs[1..] == recs;
  }

  /** A negative batchSize never equals a buffer length: all records form one last batch. */
  lemma NegativeBatchSize(batchSize: int, recs: seq<Record>)
    requires batchSize < 0
    ensures Run(batchSize, recs).scheduled == [Batch(recs, 0, true)]
  {
    if recs != [] {
      var first := OnData(Init(), batchSize, recs[0]);
      assert Feed(Init(), batchSize, recs) == Feed(first, batchSize, recs[1..]);
      FeedNeverFlushes(first, batchSize, recs[1..]);
      assert first.buf + recs[1..] == recs;
    }
  }

  /** Nine records in batches of three: two full non-last batches, then the last three. */
  lemma NineRowsInThrees(recs: seq<Record>)
    requires |recs| == 9
    ensures Run(3, recs).scheduled
            == [Batch(recs[..3], 0, false), Batch(recs[3..6], 1, false), Batch(recs[6..], 2, true)]
  {
    RunMatchesReference(3, recs);
    assert recs[3..][..3] == recs[3..6] && recs[3..][3..] == recs[6..];
    assert Chunks(recs[6..], 3) == [recs[6..]];
    assert Chunks(recs[3..], 3) == [recs[3..6], recs[6..]];
    assert Chunks(recs, 3) == [recs[..3], recs[3..6], recs[6..]];
  }
}
